=== FILE: README.md ===
# curium_bot agent core in Dafny

A model of the message pipeline of curium_bot, a Telegram bot that answers on
behalf of its owner, Akshat. The pipeline has these steps:

- An incoming message is classified into one of six intents by ordered keyword
  rules (`detectIntent`).
- The intent is turned into a response descriptor: a text, an action tag and an
  optional query (`generateResponse`).
- At most one executor runs: the language-model call for general questions, or
  the news call for tech news. Its text replaces the provisional reply
  (`processMessage`).
- The reply is delivered after a "typing" indicator has been shown for a delay
  proportional to its length (`computeDelay`, `sendTypingThenMessage`).

Modules:

- `Wrappers`: `Option` (JavaScript `null`/`undefined`) and `Result` (a call
  that returns or throws).
- `Text`: the JavaScript string operations the pipeline uses:
  - `trim` with the full ECMAScript whitespace set, and `toLowerCase`;
  - `includes`, with the index-based definition of an occurrence;
  - decimal rendering of list numbers;
  - `.length` in UTF-16 code units.
- `Agent`: `agent.js`. It holds the knowledge base `AkshatData`, with the exact
  strings of the source, and these operations:
  - intent detection;
  - descriptor generation;
  - the two executors, with each provider's answer as a parameter;
  - `processMessage`.
- `AgentProperties`: lemmas relating several calls:
  - first-match-wins detection;
  - insensitivity to letter case and surrounding whitespace;
  - the content of the generated replies;
  - the layout of the rendered news.
- `AgentExamples`: detection on concrete messages, including the two overlaps
  where an earlier rule group wins over a later one that also fires. A group
  is ruled out for a message by naming, for each keyword, a character the
  message lacks.
- `AgentFindings`: the `/help` example "Technology updates", which the rules
  classify as a general question, and a corrected detection that classifies
  it as tech news (see Findings).
- `Typing`: `telegramTyping.js`. It holds the delay, and a phase machine over
  delivery events whose accepted traces are characterised exactly.

Three details of the code that the model keeps:

- The delay is computed from `reply.length`, which counts UTF-16 code units.
  A character outside the Basic Multilingual Plane, such as most emoji,
  counts twice. `Text.Utf16Length` models this.
- `article.description || 'No description available.'` replaces an empty
  description as well as a missing one. A non-empty description is shown
  unchanged (`Agent.DescriptionOf`).
- The language model receives the user's raw message, not the normalized
  one (`Agent.ProcessMessage`, `Agent.GenerateFor`).

## Model

| member | source | states |
|---|---|---|
| Text.Trim | agent.js:30 | the result is the unique slice of the input with only whitespace before and after it and no whitespace at either end |
| Text.TrimIgnoresPadding | agent.js:30 | whitespace added before and after a string does not change its trim |
| Text.TrimIdempotent | agent.js:30 | trimming a trimmed string changes nothing |
| Text.ToLower | agent.js:30 | lower-casing keeps the length and maps every position through the letter mapping, leaving non-letters alone |
| Text.ToLowerConcat | agent.js:30 | lower-casing distributes over concatenation |
| Text.Includes | agent.js:34 | `includes` is true exactly when the key occurs at some index of the text |
| Text.IncludesAny | agent.js:33-38 | an `||` chain of `includes` is true exactly when some keyword of the group occurs |
| Text.OccursInConcat | agent.js:34 | a key occurring in either part occurs in the concatenation |
| Text.MissingCharExcludes | agent.js:34 | a key with a character the text lacks is not included |
| Text.MissingPairExcludes | agent.js:34 | a key with two adjacent characters that never stand side by side in the text is not included |
| Text.NatToDecimal | agent.js:104 | the rendered number is non-empty, all digits, without a leading zero, and reads back as the number |
| Text.Utf16Length | telegramTyping.js:4 | `.length` is between the character count and twice it |
| Text.Utf16LengthConcat | telegramTyping.js:4 | `.length` of a concatenation is the sum of the lengths |
| Text.BasicPlaneLength | telegramTyping.js:4 | without supplementary characters, `.length` is the number of characters |
| Agent.DetectIntent | agent.js:29-89 | the returned intent's rule group fires on the normalized message, and no group evaluated before it fires |
| Agent.GenerateFor | agent.js:94-140 | each action tag is set exactly for its intent; a query is present exactly for GENERAL (the raw message) and TECH_NEWS (`top-technology-news`); the about, projects and links replies contain the biography, the GitHub link and all four links; the tech-news, appointment and general replies are the fixed "fetching", confirmation and "thinking" texts |
| Agent.AboutTextHasAbout | agent.js:96-101 | the about reply contains the biography text |
| Agent.ProjectsTextHasGithub | agent.js:103-109 | the projects reply contains the GitHub link |
| Agent.LinksTextHasAll | agent.js:111-116 | the links reply contains the blog, Instagram, LinkedIn and GitHub links |
| Agent.GeminiText | agent.js:215-219 | a provider answer yields its text; a thrown call yields the fixed apology |
| Agent.DescriptionOf | agent.js:245 | a present, non-empty description is shown unchanged; the placeholder is shown exactly when the description is missing, empty, or is the placeholder itself |
| Agent.ArticleBlockShows | agent.js:244-246 | an article's block opens with its number and `. *`, has the title right after that, and shows the description (or placeholder) and the link |
| Agent.NewsBlocksAppend | agent.js:243-247 | rendering two article lists one after the other equals rendering their concatenation, with the numbering continuing |
| Agent.NewsBlocksExtend | agent.js:243-247 | one more loop iteration appends exactly the next article's block |
| Agent.RenderNews | agent.js:238-249 | the loop builds the header followed by every article's block in order; a missing or empty list gives the "no news" text |
| Agent.NewsExecutor | agent.js:225-254 | the news text of the provider's answer, and the "try again later" text when the call threw |
| Agent.ProcessMessage | agent.js:259-279 | at most one executor runs, the language model exactly for a general question and the news call exactly for tech news; after an executor runs the action is NONE, and otherwise it is NONE or the escalation; the query is unchanged; an executor's text replaces the reply; with no executor the descriptor is returned as generated |
| AgentProperties.DetectIntentIsFirstMatch | agent.js:29-89 | detection returns an intent if and only if its group fires and no earlier group does |
| AgentProperties.GeneralIffNoGroupFires | agent.js:87-88 | GENERAL is returned if and only if no keyword group fires |
| AgentProperties.NewsAndTechSelectTechNews | agent.js:66-74 | "news" and "tech" together give TECH_NEWS when no about, projects or links keyword is present |
| AgentProperties.DetectIntentIgnoresCase | agent.js:30 | messages equal up to letter case get the same intent |
| AgentProperties.DetectIntentIgnoresPadding | agent.js:30 | whitespace before and after a message does not change its intent |
| AgentProperties.NormalizeIdempotent | agent.js:30 | normalizing twice is normalizing once |
| AgentProperties.SameNormalFormSameIntent | agent.js:30 | messages with the same normal form get the same intent |
| AgentProperties.DetectIntentOfNormalized | agent.js:30 | a normalized message gets the intent of the original |
| AgentProperties.NumberedLinesListEach | agent.js:104 | every item of the joined list appears under its own number |
| AgentProperties.ProjectsReplyListsEach | agent.js:103-106 | project `i` appears in the projects reply as line `i + 1.` |
| AgentProperties.RenderedNewsInOrder | agent.js:242-249 | article `i` is block number `i + 1`, after the header and the earlier blocks and before the later ones |
| AgentProperties.NewsTextNeverProvisional | agent.js:236-253 | the news executor's text is never the provisional "fetching" text: it is "no news", the failure text, or starts with the news header |
| AgentProperties.NewsReplacesProvisional | agent.js:118-123 | when a news call is pending, the reply is the provisional "fetching" text, and the news executor's text differs from it whatever the provider answers |
| AgentExamples.WhoAreYou | agent.js:33-39 | "who are you" is ABOUT_AKSHAT with no follow-up, and the reply contains the biography |
| AgentExamples.AboutWinsOverProjects | agent.js:33-51 | "tell me about his projects" fires both the about and the projects group and is ABOUT_AKSHAT |
| AgentExamples.ProjectsWinOverTechNews | agent.js:43-74 | "latest tech news on github" fires both the projects and the tech-news group and is PROJECTS |
| AgentExamples.LatestTechNews | agent.js:66-74 | "latest tech news" is TECH_NEWS with the news call pending |
| AgentExamples.BookACall | agent.js:77-85 | "book a call" is APPOINTMENT with the escalation tag |
| AgentFindings.TechnologyUpdatesIsGeneral | agent.js:33-88 | "technology updates" fires none of the five keyword groups, so it is GENERAL and sent to the language model |
| AgentFindings.ListedTechnologyUpdatesIsGeneral | bot.js:66 | the `/help` example "Technology updates", as printed, is GENERAL |
| AgentFindings.DetectIntentIntended | agent.js:66-74 | corrected detection: the returned intent's widened group fires, and no earlier widened group does; the widened tech-news group also fires on "updates" with "tech" |
| AgentFindings.IntendedChangesOnlyUpdates | agent.js:66-74 | the corrected detection differs from the written one exactly when the written one is APPOINTMENT or GENERAL and the text has "updates" and "tech"; it then gives TECH_NEWS |
| AgentFindings.IntendedTechnologyUpdates | bot.js:64-66 | under the corrected detection, "technology updates" is TECH_NEWS with the news call pending |
| Typing.ComputeDelay | telegramTyping.js:3-5 | the delay never exceeds 3000 ms; below 75 code units it is 40 ms per unit, from 75 on it is 3000 ms |
| Typing.DelayMonotone | telegramTyping.js:3-5 | a longer reply never gets a shorter delay |
| Typing.DelayGrowsWithText | telegramTyping.js:3-5 | appending text never shortens the delay |
| Typing.DelayOfBasicText | telegramTyping.js:3-5 | without supplementary characters, length 0 gives 0 ms, 10 gives 400 ms, below 75 gives 40 ms per character, and from 75 on gives 3000 ms |
| Typing.TickingRuns | telegramTyping.js:29-41 | once the timer runs, a delivery finishes exactly when re-sends are followed by the wait, the cancel and the final post |
| Typing.ElapsedRuns | telegramTyping.js:34-41 | after the wait, the only way to finish is the cancel followed by the post |
| Typing.AcceptedTraces | telegramTyping.js:14-46 | the finished deliveries are exactly: one typing post, the timer start, re-sends, the wait, the cancel, the final post |
| Typing.FinishedDeliveryIsOrdered | telegramTyping.js:14-46 | every finished delivery posts the reply exactly once and last, cancels the timer exactly once and right before, and has no re-send after the cancel |
| Typing.SendTypingThenMessage | telegramTyping.js:14-46 | the produced trace is accepted whether or not the typing posts failed; it waits the computed delay, and the events between the timer start and the wait are exactly the given periodic re-sends; a failed final post is re-thrown and a successful one returned |

## Left out

- bot.js is not part of this model: the Telegram polling, the `/start` and
  `/help` handlers, and the escalation message sent to the owner. Only the
  examples that the `/help` reply lists are compared with the rules (see
  Findings).
- Network requests, endpoint URLs, API keys, the model name and the
  generation parameters are left out. The Gemini persona prompt is left
  out too. The language model is a function from the forwarded query to
  its answer or a fault.
- How a provider response is unpacked is left out, for example
  `response.data.candidates[0].content.parts[0].text`. A malformed response
  counts as a thrown call. The JavaScript case where the unpacked text is
  `undefined` but no error is thrown is not represented.
- An article whose `title` or `url` is missing renders as the word
  `undefined` in JavaScript. Article titles and URLs are always strings
  here.
- A message without text is left out. For a photo or sticker, bot.js passes
  `msg.text`, which is `undefined`, to `processMessage`. Then
  `message.toLowerCase()` throws, and bot.js sends its error reply.
  `Agent.DetectIntent` and `Agent.ProcessMessage` take a string, so this
  throwing path is not represented. bot.js is not part of this model.
- Console logging is left out. It has no effect on any result.
- The fixed news request parameters (category `technology`, country `us`,
  page size 5) belong to the network request and are left out. The news
  provider's answer is a parameter, like the language model's.
- Text.ToLower: maps only ASCII `A`–`Z`. JavaScript's `toLowerCase` applies
  full Unicode case mapping, which needs Unicode tables not present here.
  Every keyword is ASCII lower-case, so non-ASCII letters only matter when
  they lower-case to an ASCII letter.
- Typing.SendTypingThenMessage: the wall-clock schedule is left out. This
  covers the 900 ms interval, the real wait and the interleaving of timer
  callbacks with the final post. The number of periodic re-sends before the
  wait ends is a parameter, not derived from the delay. The
  `sendOptions`/`chat_id` payload and the value of the returned response
  body are not modelled.
- Agent.GenerateFor: takes the knowledge base as a parameter so that its
  properties hold for any content. `Agent.GenerateResponse` applies it to
  `AkshatData`, which is what `generateResponse` does.

## Findings

| source | as written | input that shows it | evidently intended | confidence | as-written member | corrected member |
|---|---|---|---|---|---|---|
| bot.js:66, agent.js:66-74 | The `/help` reply lists "Technology updates" under *Tech News*. No tech-news rule fires on it: "tech updates" is not a substring of "technology updates", and the combined rule needs "news". No other group fires either, so the message is GENERAL and goes to the language model. | "Technology updates" | The listed example is classified as TECH_NEWS and answered with the news. | not executed | AgentFindings.TechnologyUpdatesIsGeneral | AgentFindings.DetectIntentIntended |

`Agent.DetectIntent` and the rest of the agent model keep the rules as
written. `AgentFindings.DetectIntentIntended` is the corrected detection:
"updates" together with "tech" also fires the tech-news group, as "news"
together with "tech" already does. `AgentFindings.IntendedTechnologyUpdates`
proves that it gives TECH_NEWS for the listed example.
`AgentFindings.IntendedChangesOnlyUpdates` proves that it changes no other
message.

=== FILE: agent.dfy ===
/** The agent's core: classify an incoming chat message by keyword, build a
    reply descriptor for the intent, and resolve a pending language-model
    or news call into final reply text.

    The two outbound calls are not modelled as I/O: what the provider
    answered (a payload, or the fault that made the call throw) is a
    parameter, and each executor is the pure function from that answer to
    the text the user sees. */
module Agent {
  import opened Wrappers
  import opened Text

  // ---------------------------------------------------------------------
  // Knowledge base
  // ---------------------------------------------------------------------

  datatype SocialLinks = SocialLinks(blog: string, instagram: string, linkedin: string, projects: string)

  /** The static record describing the bot's owner. */
  datatype KnowledgeBase = KnowledgeBase(about: string, links: SocialLinks, projects: seq<string>)

  const AkshatData: KnowledgeBase := KnowledgeBase(
    "Akshat is a developer building automation + AI projects. He writes blogs about real-world automation workflows, posts tech content on Instagram, shares professional updates on LinkedIn, and builds hobby projects to showcase them.",
    SocialLinks(
      "http://curiumblogs.netlify.app/",
      "https://www.instagram.com/curiumakshat/",
      "https://www.linkedin.com/in/akshat-raj-1266b6377/",
      "https://github.com/curiumakshat"),
    [ "WhatsApp Payment Extractor - Automated payment tracking via WhatsApp",
      "n8n Automation Workflows - Custom workflow automation solutions",
      "AI-powered Telegram Bots - Smart assistants with API integrations" ])

  // ---------------------------------------------------------------------
  // Intent detection
  // ---------------------------------------------------------------------

  /** The labels `detectIntent` returns: ABOUT_AKSHAT, PROJECTS, LINKS,
      TECH_NEWS, APPOINTMENT and the fallback GENERAL. */
  datatype Intent = AboutAkshat | Projects | Links | TechNews | Appointment | General

  const AboutKeywords: seq<string> :=
    ["who are you", "about akshat", "tell me about", "who is akshat"]
  const ProjectKeywords: seq<string> :=
    ["project", "portfolio", "github", "what does he build", "what have you built"]
  const LinkKeywords: seq<string> :=
    ["instagram", "linkedin", "blog", "social", "links", "contact"]
  const TechNewsKeywords: seq<string> :=
    ["tech news", "latest tech", "technology news", "tech updates"]
  const AppointmentKeywords: seq<string> :=
    ["appointment", "schedule", "meeting", "book a call", "talk to akshat"]

  /** The text the rules look at: lower-cased, then trimmed. */
  function Normalize(message: string): string {
    Trim(ToLower(message))
  }

  /** The rule group of `intent` fires on `text`. The tech-news group has one
      extra disjunct: "news" and "tech" both present. GENERAL always fires. */
  predicate GroupMatches(text: string, intent: Intent) {
    match intent
    case AboutAkshat => IncludesAny(text, AboutKeywords)
    case Projects => IncludesAny(text, ProjectKeywords)
    case Links => IncludesAny(text, LinkKeywords)
    case TechNews =>
      IncludesAny(text, TechNewsKeywords) || (Includes(text, "news") && Includes(text, "tech"))
    case Appointment => IncludesAny(text, AppointmentKeywords)
    case General => true
  }

  /** Position of an intent's rule group in evaluation order. */
  function Rank(intent: Intent): nat {
    match intent
    case AboutAkshat => 0
    case Projects => 1
    case Links => 2
    case TechNews => 3
    case Appointment => 4
    case General => 5
  }

  /** `detectIntent`: the first rule group, in order, that fires on the
      normalized text. */
  function DetectIntent(message: string): (r: Intent)
    ensures GroupMatches(Normalize(message), r)
    ensures Rank(r) > Rank(AboutAkshat) ==> !GroupMatches(Normalize(message), AboutAkshat)
    ensures Rank(r) > Rank(Projects) ==> !GroupMatches(Normalize(message), Projects)
    ensures Rank(r) > Rank(Links) ==> !GroupMatches(Normalize(message), Links)
    ensures Rank(r) > Rank(TechNews) ==> !GroupMatches(Normalize(message), TechNews)
    ensures Rank(r) > Rank(Appointment) ==> !GroupMatches(Normalize(message), Appointment)
  {
    var lowerMsg := Normalize(message);
    if IncludesAny(lowerMsg, AboutKeywords) then
      AboutAkshat
    else if IncludesAny(lowerMsg, ProjectKeywords) then
      Projects
    else if IncludesAny(lowerMsg, LinkKeywords) then
      Links
    else if IncludesAny(lowerMsg, TechNewsKeywords)
         || (Includes(lowerMsg, "news") && Includes(lowerMsg, "tech")) then
      TechNews
    else if IncludesAny(lowerMsg, AppointmentKeywords) then
      Appointment
    else
      General
  }

  // ---------------------------------------------------------------------
  // Response descriptors
  // ---------------------------------------------------------------------

  /** The follow-up tag of a descriptor: NONE, CALL_GEMINI, CALL_NEWS_API
      and ESCALATE_TO_AKSHAT. */
  datatype Action = NoAction | CallGemini | CallNewsApi | EscalateToAkshat

  /** `{response, action, query}`; a `null` query is `None`. */
  datatype Descriptor = Descriptor(response: string, action: Action, query: Option<string>)

  const NewsQuery: string := "top-technology-news"
  const FetchingNewsText: string := "📰 Fetching the latest tech news for you..."
  const AppointmentText: string := "📅 Sure! Let me check with Akshat and confirm. I'll get back to you soon."
  const ThinkingText: string := "🤔 Let me think about that..."

  function AboutText(kb: KnowledgeBase): string {
    "👋 Hi! I'm Akshat's Personal AI Agent.\n\n" + kb.about
      + "\n\nWant to know more? Ask me about his projects, blog, or social links!"
  }

  /** One line of the project list: `${i + 1}. ${p}`. */
  function NumberedItem(n: nat, item: string): string {
    NatToDecimal(n) + ". " + item
  }

  /** `items.map((p, i) => ...).join('\n')` with numbering starting at `first`. */
  function NumberedLines(items: seq<string>, first: nat): string
    decreases |items|
  {
    if |items| == 0 then ""
    else if |items| == 1 then NumberedItem(first, items[0])
    else NumberedItem(first, items[0]) + "\n" + NumberedLines(items[1..], first + 1)
  }

  function ProjectsText(kb: KnowledgeBase): string {
    "🚀 Here are some of Akshat's projects:\n\n" + NumberedLines(kb.projects, 1)
      + "\n\nCheck out more on GitHub: " + kb.links.projects
  }

  function LinksText(kb: KnowledgeBase): string {
    "🔗 Connect with Akshat:\n\n📝 Blog: " + kb.links.blog
      + "\n📸 Instagram: " + kb.links.instagram
      + "\n💼 LinkedIn: " + kb.links.linkedin
      + "\n💻 GitHub: " + kb.links.projects
  }

  lemma AboutTextHasAbout(kb: KnowledgeBase)
    ensures Occurs(AboutText(kb), kb.about)
  {
    var pre := "👋 Hi! I'm Akshat's Personal AI Agent.\n\n";
    var post := "\n\nWant to know more? Ask me about his projects, blog, or social links!";
    assert AboutText(kb) == pre + (kb.about + post);
    assert OccursAt(pre + (kb.about + post), kb.about, |pre|);
  }

  lemma ProjectsTextHasGithub(kb: KnowledgeBase)
    ensures Occurs(ProjectsText(kb), kb.links.projects)
  {
    var t := ProjectsText(kb);
    assert OccursAt(t, kb.links.projects, |t| - |kb.links.projects|);
  }

  /** A key placed after a prefix occurs in any text that continues it. */
  lemma OccursAfterPrefix(pre: string, key: string, post: string)
    ensures OccursAt(pre + key + post, key, |pre|)
  {
    assert (pre + key + post)[|pre|..|pre| + |key|] == key;
  }

  lemma LinksTextHasAll(kb: KnowledgeBase)
    ensures Occurs(LinksText(kb), kb.links.blog)
    ensures Occurs(LinksText(kb), kb.links.instagram)
    ensures Occurs(LinksText(kb), kb.links.linkedin)
    ensures Occurs(LinksText(kb), kb.links.projects)
  {
    var l := kb.links;
    var p1 := "🔗 Connect with Akshat:\n\n📝 Blog: ";
    var p2 := p1 + l.blog + "\n📸 Instagram: ";
    var p3 := p2 + l.instagram + "\n💼 LinkedIn: ";
    var p4 := p3 + l.linkedin + "\n💻 GitHub: ";
    var t := LinksText(kb);
    assert t == p4 + l.projects;
    OccursAfterPrefix(p1, l.blog, t[|p1| + |l.blog|..]);
    assert t == p1 + l.blog + t[|p1| + |l.blog|..];
    OccursAfterPrefix(p2, l.instagram, t[|p2| + |l.instagram|..]);
    assert t == p2 + l.instagram + t[|p2| + |l.instagram|..];
    OccursAfterPrefix(p3, l.linkedin, t[|p3| + |l.linkedin|..]);
    assert t == p3 + l.linkedin + t[|p3| + |l.linkedin|..];
    OccursAfterPrefix(p4, l.projects, "");
    assert t == p4 + l.projects + "";
  }

  /** `generateResponse` against a given knowledge base. The static intents
      need no follow-up; tech news and general questions leave a call
      pending; an appointment request is escalated. Only a general question
      carries the user's raw, un-normalized message as its query. */
  function GenerateFor(kb: KnowledgeBase, message: string, intent: Intent): (r: Descriptor)
    ensures r.action == CallGemini <==> intent == General
    ensures r.action == CallNewsApi <==> intent == TechNews
    ensures r.action == EscalateToAkshat <==> intent == Appointment
    ensures r.query.Some? <==> intent in {General, TechNews}
    ensures intent == General ==> r.query == Some(message)
    ensures intent == TechNews ==> r.query == Some(NewsQuery)
    ensures intent == TechNews ==> r.response == FetchingNewsText
    ensures intent == Appointment ==> r.response == AppointmentText
    ensures intent == General ==> r.response == ThinkingText
    ensures intent == AboutAkshat ==> Occurs(r.response, kb.about)
    ensures intent == Projects ==> Occurs(r.response, kb.links.projects)
    ensures intent == Links ==>
      && Occurs(r.response, kb.links.blog) && Occurs(r.response, kb.links.instagram)
      && Occurs(r.response, kb.links.linkedin) && Occurs(r.response, kb.links.projects)
  {
    match intent
    case AboutAkshat =>
      AboutTextHasAbout(kb);
      Descriptor(AboutText(kb), NoAction, None)
    case Projects =>
      ProjectsTextHasGithub(kb);
      Descriptor(ProjectsText(kb), NoAction, None)
    case Links =>
      LinksTextHasAll(kb);
      Descriptor(LinksText(kb), NoAction, None)
    case TechNews =>
      Descriptor(FetchingNewsText, CallNewsApi, Some(NewsQuery))
    case Appointment =>
      Descriptor(AppointmentText, EscalateToAkshat, None)
    case General =>
      Descriptor(ThinkingText, CallGemini, Some(message))
  }

  /** `generateResponse`: the descriptor for the bot's own knowledge base. */
  function GenerateResponse(message: string, intent: Intent): Descriptor {
    GenerateFor(AkshatData, message, intent)
  }

  // ---------------------------------------------------------------------
  // Executors
  // ---------------------------------------------------------------------

  /** Why an outbound call threw: the network, a payload without the
      expected shape, or missing credentials. */
  datatype Fault = NetworkError | MalformedPayload | MissingCredentials

  const GeminiFailureText: string :=
    "I encountered an issue connecting to my knowledge base. Please try again later."

  /** `callGeminiAPI` once the provider has answered: the first candidate's
      text, or the fixed apology when the call threw. */
  function GeminiText(reply: Result<string, Fault>): (r: string)
    ensures reply.Failure? ==> r == GeminiFailureText
    ensures reply.Success? ==> r == reply.value
  {
    match reply
    case Success(text) => text
    case Failure(_) => GeminiFailureText
  }

  /** A news record: `description` may be missing. */
  datatype Article = Article(title: string, description: Option<string>, url: string)

  const NoNewsText: string := "📰 No tech news available at the moment."
  const NewsFailureText: string := "📰 Unable to fetch tech news right now. Please try again later."
  const NewsHeader: string := "📰 *Latest Tech News:*\n\n"
  const NoDescriptionText: string := "No description available."

  /** `article.description || 'No description available.'`: JavaScript's
      `||` also replaces an empty description. */
  function DescriptionOf(a: Article): (d: string)
    ensures d == NoDescriptionText <==> a.description.None? || a.description.value in {"", NoDescriptionText}
    ensures a.description.Some? && a.description.value != "" ==> d == a.description.value
  {
    match a.description
    case Some(d) => if d == "" then NoDescriptionText else d
    case None => NoDescriptionText
  }

  /** The block appended for the article at 1-based position `n`. */
  function ArticleBlock(n: nat, a: Article): string {
    NatToDecimal(n) + ". *" + a.title + "*\n"
      + "   " + DescriptionOf(a) + "\n"
      + "   🔗 [Read more](" + a.url + ")\n\n"
  }

  /** A block opens with its number and the bold marker, and shows the
      article's title right after it, then its description and its link. */
  lemma ArticleBlockShows(n: nat, a: Article)
    ensures NatToDecimal(n) + ". *" <= ArticleBlock(n, a)
    ensures OccursAt(ArticleBlock(n, a), a.title, |NatToDecimal(n)| + 3)
    ensures Occurs(ArticleBlock(n, a), DescriptionOf(a))
    ensures Occurs(ArticleBlock(n, a), a.url)
  {
    ArticleBlockOpens(n, a);
    ArticleBlockDetails(n, a);
  }

  lemma ArticleBlockOpens(n: nat, a: Article)
    ensures NatToDecimal(n) + ". *" <= ArticleBlock(n, a)
    ensures OccursAt(ArticleBlock(n, a), a.title, |NatToDecimal(n)| + 3)
  {
    var b := ArticleBlock(n, a);
    var p1 := NatToDecimal(n) + ". *";
    var rest := "*\n" + "   " + DescriptionOf(a) + "\n" + "   🔗 [Read more](" + a.url + ")\n\n";
    assert b == p1 + a.title + rest;
    OccursAfterPrefix(p1, a.title, rest);
  }

  lemma ArticleBlockDetails(n: nat, a: Article)
    ensures Occurs(ArticleBlock(n, a), DescriptionOf(a))
    ensures Occurs(ArticleBlock(n, a), a.url)
  {
    var b := ArticleBlock(n, a);
    var p2 := NatToDecimal(n) + ". *" + a.title + "*\n" + "   ";
    var p3 := p2 + DescriptionOf(a) + "\n" + "   🔗 [Read more](";
    var tail := ")\n\n";
    assert b == p3 + a.url + tail;
    OccursAfterPrefix(p3, a.url, tail);
    assert b == p2 + DescriptionOf(a) + ("\n" + "   🔗 [Read more](" + a.url + tail);
    OccursAfterPrefix(p2, DescriptionOf(a), "\n" + "   🔗 [Read more](" + a.url + tail);
  }

  /** The blocks of `articles`, numbered from `first` on. */
  function NewsBlocks(articles: seq<Article>, first: nat): string
    decreases |articles|
  {
    if |articles| == 0 then ""
    else ArticleBlock(first, articles[0]) + NewsBlocks(articles[1..], first + 1)
  }

  /** Splitting the article list splits the rendered blocks, with the
      numbering of the second part continuing where the first stopped. */
  lemma {:induction false} NewsBlocksAppend(a: seq<Article>, b: seq<Article>, first: nat)
    ensures NewsBlocks(a + b, first) == NewsBlocks(a, first) + NewsBlocks(b, first + |a|)
    decreases |a|
  {
    if |a| == 0 {
      assert a + b == b;
    } else {
      var h := ArticleBlock(first, a[0]);
      assert (a + b)[0] == a[0];
      assert (a + b)[1..] == a[1..] + b;
      NewsBlocksAppend(a[1..], b, first + 1);
      StringConcatAssociates(h, NewsBlocks(a[1..], first + 1), NewsBlocks(b, first + |a|));
    }
  }

  lemma StringConcatAssociates(x: string, y: string, z: string)
    ensures x + (y + z) == (x + y) + z
  {
  }

  /** Rendering one more article appends its block. */
  lemma NewsBlocksExtend(list: seq<Article>, index: nat)
    requires index < |list|
    ensures NewsHeader + NewsBlocks(list[..index + 1], 1)
      == (NewsHeader + NewsBlocks(list[..index], 1)) + ArticleBlock(index + 1, list[index])
  {
    NewsBlocksAppend(list[..index], [list[index]], 1);
    assert list[..index + 1] == list[..index] + [list[index]];
    assert NewsBlocks([list[index]], 1 + index) == ArticleBlock(index + 1, list[index]) + NewsBlocks([], index + 2);
    StringConcatAssociates(NewsHeader, NewsBlocks(list[..index], 1), ArticleBlock(index + 1, list[index]));
  }

  /** The text the news executor shows for an article list, or for a
      missing list (`None`). */
  function RenderedNews(articles: Option<seq<Article>>): string {
    match articles
    case None => NoNewsText
    case Some(list) => if |list| == 0 then NoNewsText else NewsHeader + NewsBlocks(list, 1)
  }

  /** The rendering loop of `callNewsAPI`: the "no news" text for a missing
      or empty list, else the header followed by one block per article,
      appended in order. */
  method RenderNews(articles: Option<seq<Article>>) returns (newsText: string)
    ensures newsText == RenderedNews(articles)
    ensures (articles.None? || |articles.value| == 0) ==> newsText == NoNewsText
  {
    if articles.None? || |articles.value| == 0 {
      return NoNewsText;
    }
    var list := articles.value;
    newsText := NewsHeader;
    var index := 0;
    while index < |list|
      invariant 0 <= index <= |list|
      invariant newsText == NewsHeader + NewsBlocks(list[..index], 1)
    {
      NewsBlocksExtend(list, index);
      newsText := newsText + ArticleBlock(index + 1, list[index]);
      index := index + 1;
    }
    assert list[..index] == list;
  }

  /** `callNewsAPI` once the provider has answered: the rendered articles,
      or the fixed apology when the call threw. */
  function NewsText(reply: Result<Option<seq<Article>>, Fault>): string {
    match reply
    case Success(articles) => RenderedNews(articles)
    case Failure(_) => NewsFailureText
  }

  method NewsExecutor(reply: Result<Option<seq<Article>>, Fault>) returns (text: string)
    ensures text == NewsText(reply)
    ensures reply.Failure? ==> text == NewsFailureText
  {
    match reply {
      case Success(articles) =>
        text := RenderNews(articles);
      case Failure(_) =>
        text := NewsFailureText;
    }
  }

  // ---------------------------------------------------------------------
  // Orchestration
  // ---------------------------------------------------------------------

  /** The descriptor `processMessage` holds before any executor runs. */
  function Pending(userMessage: string): Descriptor {
    GenerateResponse(userMessage, DetectIntent(userMessage))
  }

  /** The executors `processMessage` may call. */
  datatype Executor = Gemini | NewsApi

  /** The final descriptor together with the executors called, in order. */
  datatype Processed = Processed(result: Descriptor, executed: seq<Executor>)

  /** `processMessage`: classify, generate, then run at most one executor,
      whose text replaces the provisional reply and whose tag is cleared
      to NONE. `gemini` is what the language model answers for a query;
      `news` is what the news provider answers. */
  method ProcessMessage(
    userMessage: string,
    gemini: string -> Result<string, Fault>,
    news: Result<Option<seq<Article>>, Fault>
  ) returns (p: Processed)
    ensures p.result.action in {NoAction, EscalateToAkshat}
    ensures |p.executed| <= 1
    ensures p.executed == [Gemini] <==> Pending(userMessage).action == CallGemini
    ensures p.executed == [NewsApi] <==> Pending(userMessage).action == CallNewsApi
    ensures p.executed != [] ==> p.result.action == NoAction
    ensures p.executed == [] ==> p.result == Pending(userMessage)
    ensures p.result.query == Pending(userMessage).query
    ensures p.executed == [Gemini] ==> p.result.response == GeminiText(gemini(userMessage))
    ensures p.executed == [NewsApi] ==> p.result.response == NewsText(news)
  {
    var intent := DetectIntent(userMessage);
    var result := GenerateResponse(userMessage, intent);
    var executed: seq<Executor> := [];
    if result.action == CallGemini {
      var geminiResponse := GeminiText(gemini(result.query.value));
      result := result.(response := geminiResponse, action := NoAction);
      executed := [Gemini];
    } else if result.action == CallNewsApi {
      var newsResponse := NewsExecutor(news);
      result := result.(response := newsResponse, action := NoAction);
      executed := [NewsApi];
    }
    p := Processed(result, executed);
  }
}

=== FILE: agent_examples.dfy ===
/** Worked examples of intent detection on concrete messages, including the
    two overlaps where an earlier rule group wins over a later one that
    also fires. */
module AgentExamples {
  import opened Text
  import opened Agent

  // ---------------------------------------------------------------------
  // Ruling out a rule group
  // ---------------------------------------------------------------------

  // A keyword cannot occur in a text that lacks one of its characters
  // (`MissingCharExcludes`), so a group is ruled out by naming, for each of
  // its keywords, one character the message does not contain.

  /** A lower-case message without surrounding whitespace is its own
      normal form. */
  lemma NormalizeFixed(s: string)
    requires IsLower(s) && IsTrimmed(s)
    ensures Normalize(s) == s
  {
    ToLowerFixed(s);
    TrimFixed(s);
  }

  /** The about group cannot fire without 'y', 'k' and 'm', or without
      'u' and 'w'. */
  lemma AboutRuledOut(s: string)
    requires ('y' !in s && 'k' !in s && 'm' !in s) || ('u' !in s && 'w' !in s)
    ensures !GroupMatches(s, AboutAkshat)
  {
    if 'y' !in s && 'k' !in s && 'm' !in s {
      MissingCharExcludes(s, "who are you", 8);
      MissingCharExcludes(s, "about akshat", 7);
      MissingCharExcludes(s, "tell me about", 5);
      MissingCharExcludes(s, "who is akshat", 8);
    } else {
      MissingCharExcludes(s, "who are you", 0);
      MissingCharExcludes(s, "about akshat", 3);
      MissingCharExcludes(s, "tell me about", 11);
      MissingCharExcludes(s, "who is akshat", 0);
    }
    NoneIncluded(s, AboutKeywords);
  }

  /** The projects group cannot fire without 'p', 'g', and one of 'o' or 'u'. */
  lemma ProjectsRuledOut(s: string)
    requires 'p' !in s && 'g' !in s && ('o' !in s || 'u' !in s)
    ensures !GroupMatches(s, Projects)
  {
    MissingCharExcludes(s, "project", 0);
    MissingCharExcludes(s, "portfolio", 0);
    MissingCharExcludes(s, "github", 0);
    if 'o' !in s {
      MissingCharExcludes(s, "what does he build", 6);
      MissingCharExcludes(s, "what have you built", 11);
    } else {
      MissingCharExcludes(s, "what does he build", 14);
      MissingCharExcludes(s, "what have you built", 12);
    }
    NoneIncluded(s, ProjectKeywords);
  }

  /** The links group cannot fire without 'i', one of 'b' or 'g', and one of
      'o' or 'n'. */
  lemma LinksRuledOut(s: string)
    requires 'i' !in s && ('b' !in s || 'g' !in s) && ('o' !in s || 'n' !in s)
    ensures !GroupMatches(s, Links)
  {
    MissingCharExcludes(s, "instagram", 0);
    MissingCharExcludes(s, "linkedin", 1);
    MissingCharExcludes(s, "social", 3);
    MissingCharExcludes(s, "links", 1);
    if 'b' !in s {
      MissingCharExcludes(s, "blog", 0);
    } else {
      MissingCharExcludes(s, "blog", 3);
    }
    if 'o' !in s {
      MissingCharExcludes(s, "contact", 1);
    } else {
      MissingCharExcludes(s, "contact", 2);
    }
    NoneIncluded(s, LinkKeywords);
  }

  /** The tech-news group cannot fire without a 't'. */
  lemma TechNewsRuledOut(s: string)
    requires 't' !in s
    ensures !GroupMatches(s, TechNews)
  {
    MissingCharExcludes(s, "tech news", 0);
    MissingCharExcludes(s, "latest tech", 2);
    MissingCharExcludes(s, "technology news", 0);
    MissingCharExcludes(s, "tech updates", 0);
    MissingCharExcludes(s, "tech", 0);
    NoneIncluded(s, TechNewsKeywords);
  }

  // ---------------------------------------------------------------------
  // Examples
  // ---------------------------------------------------------------------

  // Each combinator turns the group facts of a normalized message into its
  // label, so that no literal message meets the whole detection chain.
  //
  // An example lemma takes its message as a parameter pinned by a
  // `requires m == "..."` instead of writing the literal in its `ensures`.
  // A literal argument lets the solver unfold the recursive string
  // functions (`Includes`, `IncludesAny`, `Trim`) on it character by
  // character while it proves unrelated facts. Behind a parameter, each
  // lemma sees the literal only where it states one fact about it, and the
  // proofs stay within the solver's resource budget.

  lemma DetectsAbout(m: string)
    requires Normalize(m) == m && GroupMatches(m, AboutAkshat)
    ensures DetectIntent(m) == AboutAkshat
  {
  }

  lemma DetectsProjects(m: string)
    requires Normalize(m) == m && !GroupMatches(m, AboutAkshat)
    requires GroupMatches(m, Projects)
    ensures DetectIntent(m) == Projects
  {
  }

  lemma DetectsTechNews(m: string)
    requires Normalize(m) == m && !GroupMatches(m, AboutAkshat)
    requires !GroupMatches(m, Projects) && !GroupMatches(m, Links)
    requires GroupMatches(m, TechNews)
    ensures DetectIntent(m) == TechNews
  {
  }

  lemma DetectsAppointment(m: string)
    requires Normalize(m) == m && !GroupMatches(m, AboutAkshat)
    requires !GroupMatches(m, Projects) && !GroupMatches(m, Links)
    requires !GroupMatches(m, TechNews) && GroupMatches(m, Appointment)
    ensures DetectIntent(m) == Appointment
  {
  }

  /** The short example messages are already lower-case and trimmed. */
  lemma ShortExamplesAreNormal(m: string)
    requires m == "who are you" || m == "latest tech news" || m == "book a call"
    ensures Normalize(m) == m
  {
    NormalizeFixed(m);
  }

  /** The long example messages are already lower-case and trimmed. */
  lemma LongExamplesAreNormal(m: string)
    requires m == "tell me about his projects" || m == "latest tech news on github"
    ensures Normalize(m) == m
  {
    NormalizeFixed(m);
  }

  /** No about keyword occurs in the examples that are not about the owner. */
  lemma ExamplesNotAbout(m: string)
    requires m == "latest tech news on github" || m == "latest tech news" || m == "book a call"
    ensures !GroupMatches(m, AboutAkshat)
  {
    AboutRuledOut(m);
  }

  /** No projects keyword occurs in "latest tech news" or "book a call". */
  lemma ExamplesNotProjects(m: string)
    requires m == "latest tech news" || m == "book a call"
    ensures !GroupMatches(m, Projects)
  {
    ProjectsRuledOut(m);
  }

  /** No links keyword occurs in "latest tech news" or "book a call". */
  lemma ExamplesNotLinks(m: string)
    requires m == "latest tech news" || m == "book a call"
    ensures !GroupMatches(m, Links)
  {
    LinksRuledOut(m);
  }

  /** "who are you" is a question about the owner, answered from the
      knowledge base with no follow-up. */
  lemma WhoAreYou(m: string)
    requires m == "who are you"
    ensures DetectIntent(m) == AboutAkshat
    ensures Pending(m).action == NoAction
    ensures Occurs(Pending(m).response, AkshatData.about)
  {
    ShortExamplesAreNormal(m);
    WhoAreYouFires(m);
    DetectsAbout(m);
  }

  lemma WhoAreYouFires(m: string)
    requires m == "who are you"
    ensures GroupMatches(m, AboutAkshat)
  {
    assert OccursAt(m, AboutKeywords[0], 0);
  }

  /** "tell me about his projects" fires both the about and the projects
      group; the about group is evaluated first and wins. */
  lemma AboutWinsOverProjects(m: string)
    requires m == "tell me about his projects"
    ensures GroupMatches(Normalize(m), Projects)
    ensures DetectIntent(m) == AboutAkshat
  {
    LongExamplesAreNormal(m);
    AboutProjectsFiresAbout(m);
    AboutProjectsFiresProjects(m);
    DetectsAbout(m);
  }

  lemma AboutProjectsFiresAbout(m: string)
    requires m == "tell me about his projects"
    ensures GroupMatches(m, AboutAkshat)
  {
    assert OccursAt(m, AboutKeywords[2], 0);
  }

  lemma AboutProjectsFiresProjects(m: string)
    requires m == "tell me about his projects"
    ensures GroupMatches(m, Projects)
  {
    assert OccursAt(m, ProjectKeywords[0], 18);
  }

  /** "latest tech news on github" fires the projects and the tech-news
      group; projects is evaluated first and wins. */
  lemma ProjectsWinOverTechNews(m: string)
    requires m == "latest tech news on github"
    ensures GroupMatches(Normalize(m), TechNews)
    ensures DetectIntent(m) == Projects
  {
    LongExamplesAreNormal(m);
    ExamplesNotAbout(m);
    GithubNewsFiresProjects(m);
    GithubNewsFiresTechNews(m);
    DetectsProjects(m);
  }

  lemma GithubNewsFiresProjects(m: string)
    requires m == "latest tech news on github"
    ensures GroupMatches(m, Projects)
  {
    assert OccursAt(m, ProjectKeywords[2], 20);
  }

  lemma GithubNewsFiresTechNews(m: string)
    requires m == "latest tech news on github"
    ensures GroupMatches(m, TechNews)
  {
    assert OccursAt(m, TechNewsKeywords[0], 7);
  }

  /** "latest tech news" asks for the news, leaving a news call pending. */
  lemma LatestTechNews(m: string)
    requires m == "latest tech news"
    ensures DetectIntent(m) == TechNews
    ensures Pending(m).action == CallNewsApi
  {
    ShortExamplesAreNormal(m);
    ExamplesNotAbout(m);
    ExamplesNotProjects(m);
    ExamplesNotLinks(m);
    LatestTechNewsFires(m);
    DetectsTechNews(m);
  }

  lemma LatestTechNewsFires(m: string)
    requires m == "latest tech news"
    ensures GroupMatches(m, TechNews)
  {
    assert OccursAt(m, TechNewsKeywords[0], 7);
  }

  /** "book a call" is an appointment request, escalated to the owner. */
  lemma BookACall(m: string)
    requires m == "book a call"
    ensures DetectIntent(m) == Appointment
    ensures Pending(m).action == EscalateToAkshat
  {
    ShortExamplesAreNormal(m);
    ExamplesNotAbout(m);
    ExamplesNotProjects(m);
    ExamplesNotLinks(m);
    BookACallNotTechNews(m);
    BookACallFires(m);
    DetectsAppointment(m);
  }

  lemma BookACallNotTechNews(m: string)
    requires m == "book a call"
    ensures !GroupMatches(m, TechNews)
  {
    TechNewsRuledOut(m);
  }

  lemma BookACallFires(m: string)
    requires m == "book a call"
    ensures GroupMatches(m, Appointment)
  {
    assert OccursAt(m, AppointmentKeywords[3], 0);
  }
}

=== FILE: agent_findings.dfy ===
/** The `/help` reply of the bot lists "Technology updates" as an example of
    a tech-news question, but no tech-news rule fires on it: "tech updates"
    is not a substring of "technology updates", and the combined rule wants
    "news". The message falls through every group and is answered as a
    general question. This module shows that, and gives a corrected
    detection in which "updates" together with "tech" selects tech news,
    as "news" together with "tech" already does. */
module AgentFindings {
  import opened Text
  import opened Agent
  import AgentProperties

  // ---------------------------------------------------------------------
  // As written
  // ---------------------------------------------------------------------

  // Each group is ruled out keyword by keyword: by a character the message
  // lacks (`MissingCharExcludes`), or by two adjacent characters of the
  // keyword that never stand side by side in it (`MissingPairExcludes`).
  // As in `AgentExamples`, a literal message enters a lemma only through a
  // `requires m == "..."`, and each such lemma states one fact about it.

  /** A normalized message on which no keyword group fires is GENERAL. */
  lemma DetectsGeneral(m: string)
    requires Normalize(m) == m
    requires !GroupMatches(m, AboutAkshat) && !GroupMatches(m, Projects)
    requires !GroupMatches(m, Links) && !GroupMatches(m, TechNews)
    requires !GroupMatches(m, Appointment)
    ensures DetectIntent(m) == General
  {
  }

  lemma UpdatesIsNormal(m: string)
    requires m == "technology updates"
    ensures Normalize(m) == m
  {
    ToLowerFixed(m);
    TrimFixed(m);
  }

  /** The help text's capitalised form normalizes to the lower-case one. */
  lemma ListedUpdatesNormalizes(m: string)
    requires m == "Technology updates"
    ensures Normalize(m) == "technology updates"
  {
    ListedUpdatesLowers(m);
    TrimFixed("technology updates");
  }

  lemma ListedUpdatesLowers(m: string)
    requires m == "Technology updates"
    ensures ToLower(m) == "technology updates"
  {
    var rest := "echnology updates";
    assert m == "T" + rest;
    ToLowerConcat("T", rest);
    CapitalLowers("T");
    ToLowerFixed(rest);
    assert "t" + rest == "technology updates";
  }

  lemma CapitalLowers(c: string)
    requires c == "T"
    ensures ToLower(c) == "t"
  {
    assert ToLower(c)[0] == 't';
  }

  /** The characters "technology updates" lacks. */
  lemma UpdatesLacksChars(m: string)
    requires m == "technology updates"
    ensures 'b' !in m && 'i' !in m && 'k' !in m
    ensures 'm' !in m && 'r' !in m && 'w' !in m
  {
    UpdatesLacksBIK(m);
    UpdatesLacksMRW(m);
  }

  lemma UpdatesLacksBIK(m: string)
    requires m == "technology updates"
    ensures 'b' !in m && 'i' !in m && 'k' !in m
  {
  }

  lemma UpdatesLacksMRW(m: string)
    requires m == "technology updates"
    ensures 'm' !in m && 'r' !in m && 'w' !in m
  {
  }

  /** The adjacent pairs "technology updates" lacks. */
  lemma UpdatesLacksPairs(m: string)
    requires m == "technology updates"
    ensures !HasPair(m, 'c', 'o') && !HasPair(m, 'l', 'a')
    ensures !HasPair(m, 'h', ' ') && !HasPair(m, 's', 'c')
  {
  }

  /** "who are you" and "who is akshat" need a 'w', "about akshat" a 'b',
      "tell me about" an 'm'. */
  lemma AboutAbsent(s: string)
    requires 'w' !in s && 'b' !in s && 'm' !in s
    ensures !GroupMatches(s, AboutAkshat)
  {
    MissingCharExcludes(s, "who are you", 0);
    MissingCharExcludes(s, "about akshat", 1);
    MissingCharExcludes(s, "tell me about", 5);
    MissingCharExcludes(s, "who is akshat", 0);
    NoneIncluded(s, AboutKeywords);
  }

  /** "project" and "portfolio" need an 'r', "github" an 'i', the two
      questions a 'w'. */
  lemma ProjectsAbsent(s: string)
    requires 'r' !in s && 'i' !in s && 'w' !in s
    ensures !GroupMatches(s, Projects)
  {
    MissingCharExcludes(s, "project", 1);
    MissingCharExcludes(s, "portfolio", 2);
    MissingCharExcludes(s, "github", 1);
    MissingCharExcludes(s, "what does he build", 0);
    MissingCharExcludes(s, "what have you built", 0);
    NoneIncluded(s, ProjectKeywords);
  }

  /** Every links keyword but "contact" needs an 'i' or a 'b'; "contact"
      needs "co". */
  lemma LinksAbsent(s: string)
    requires 'i' !in s && 'b' !in s && !HasPair(s, 'c', 'o')
    ensures !GroupMatches(s, Links)
  {
    MissingCharExcludes(s, "instagram", 0);
    MissingCharExcludes(s, "linkedin", 1);
    MissingCharExcludes(s, "blog", 0);
    MissingCharExcludes(s, "social", 3);
    MissingCharExcludes(s, "links", 1);
    MissingPairExcludes(s, "contact", 0);
    NoneIncluded(s, LinkKeywords);
  }

  /** "tech news", "technology news" and "news" need a 'w'; "latest tech"
      needs "la"; "tech updates" needs "h ". */
  lemma TechNewsAbsent(s: string)
    requires 'w' !in s && !HasPair(s, 'l', 'a') && !HasPair(s, 'h', ' ')
    ensures !GroupMatches(s, TechNews)
  {
    MissingCharExcludes(s, "tech news", 7);
    MissingPairExcludes(s, "latest tech", 0);
    MissingCharExcludes(s, "technology news", 13);
    MissingPairExcludes(s, "tech updates", 3);
    NoneIncluded(s, TechNewsKeywords);
    MissingCharExcludes(s, "news", 2);
  }

  /** "appointment" needs an 'i', "schedule" needs "sc", "meeting" an 'm',
      "book a call" a 'b', "talk to akshat" a 'k'. */
  lemma AppointmentAbsent(s: string)
    requires 'i' !in s && 'm' !in s && 'b' !in s && 'k' !in s && !HasPair(s, 's', 'c')
    ensures !GroupMatches(s, Appointment)
  {
    MissingCharExcludes(s, "appointment", 4);
    MissingPairExcludes(s, "schedule", 0);
    MissingCharExcludes(s, "meeting", 0);
    MissingCharExcludes(s, "book a call", 0);
    MissingCharExcludes(s, "talk to akshat", 3);
    NoneIncluded(s, AppointmentKeywords);
  }

  /** "technology updates" fires no keyword group: it is GENERAL and goes to
      the language model instead of the news call. */
  lemma TechnologyUpdatesIsGeneral(m: string)
    requires m == "technology updates"
    ensures DetectIntent(m) == General
    ensures Pending(m).action == CallGemini
  {
    UpdatesIsNormal(m);
    UpdatesLacksChars(m);
    UpdatesLacksPairs(m);
    AboutAbsent(m);
    ProjectsAbsent(m);
    LinksAbsent(m);
    TechNewsAbsent(m);
    AppointmentAbsent(m);
    DetectsGeneral(m);
  }

  /** The example exactly as the help text prints it is GENERAL too. */
  lemma ListedTechnologyUpdatesIsGeneral(m: string)
    requires m == "Technology updates"
    ensures DetectIntent(m) == General
  {
    ListedUpdatesNormalizes(m);
    TechnologyUpdatesIsGeneral("technology updates");
    UpdatesIsNormal("technology updates");
    AgentProperties.SameNormalFormSameIntent(m, "technology updates");
  }

  // ---------------------------------------------------------------------
  // Corrected
  // ---------------------------------------------------------------------

  /** The rule groups with the tech-news group widened: "updates" together
      with "tech" also fires it. */
  predicate IntendedGroupMatches(text: string, intent: Intent) {
    if intent == TechNews then
      GroupMatches(text, TechNews) || (Includes(text, "updates") && Includes(text, "tech"))
    else
      GroupMatches(text, intent)
  }

  /** Detection with the widened tech-news group: the first widened group,
      in order, that fires on the normalized text. */
  function DetectIntentIntended(message: string): (r: Intent)
    ensures IntendedGroupMatches(Normalize(message), r)
    ensures Rank(r) > Rank(AboutAkshat) ==> !IntendedGroupMatches(Normalize(message), AboutAkshat)
    ensures Rank(r) > Rank(Projects) ==> !IntendedGroupMatches(Normalize(message), Projects)
    ensures Rank(r) > Rank(Links) ==> !IntendedGroupMatches(Normalize(message), Links)
    ensures Rank(r) > Rank(TechNews) ==> !IntendedGroupMatches(Normalize(message), TechNews)
    ensures Rank(r) > Rank(Appointment) ==> !IntendedGroupMatches(Normalize(message), Appointment)
  {
    var text := Normalize(message);
    var written := DetectIntent(message);
    if Rank(written) > Rank(TechNews) && Includes(text, "updates") && Includes(text, "tech") then
      TechNews
    else
      written
  }

  /** The correction only moves messages that mention both "updates" and
      "tech", and only from APPOINTMENT or GENERAL to TECH_NEWS. */
  lemma IntendedChangesOnlyUpdates(message: string)
    ensures DetectIntentIntended(message) != DetectIntent(message) <==>
      && Rank(DetectIntent(message)) > Rank(TechNews)
      && Includes(Normalize(message), "updates") && Includes(Normalize(message), "tech")
    ensures DetectIntentIntended(message) != DetectIntent(message) ==>
      DetectIntentIntended(message) == TechNews
  {
  }

  /** Under the corrected rules, "technology updates" is tech news and the
      news call is pending. */
  lemma IntendedTechnologyUpdates(m: string)
    requires m == "technology updates"
    ensures DetectIntentIntended(m) == TechNews
    ensures GenerateResponse(m, DetectIntentIntended(m)).action == CallNewsApi
  {
    TechnologyUpdatesIsGeneral(m);
    UpdatesIsNormal(m);
    UpdatesMentionsTech(m);
  }

  lemma UpdatesMentionsTech(m: string)
    requires m == "technology updates"
    ensures Includes(m, "updates") && Includes(m, "tech")
  {
    assert OccursAt(m, "updates", 11);
    assert OccursAt(m, "tech", 0);
  }
}

=== FILE: agent_properties.dfy ===
/** Properties of the agent pipeline that relate several calls: the
    first-match reading of intent detection, its insensitivity to letter
    case and surrounding whitespace, the content of the generated replies
    and the layout of the rendered news. */
module AgentProperties {
  import opened Wrappers
  import opened Text
  import opened Agent

  // ---------------------------------------------------------------------
  // Intent detection: first match wins
  // ---------------------------------------------------------------------

  /** The detected intent is exactly the first group, in evaluation order,
      that fires: detection returns `i` if and only if `i`'s group fires
      and no earlier one does. */
  lemma DetectIntentIsFirstMatch(message: string, i: Intent)
    ensures DetectIntent(message) == i <==>
      && GroupMatches(Normalize(message), i)
      && forall j :: Rank(j) < Rank(i) ==> !GroupMatches(Normalize(message), j)
  {
    var r := DetectIntent(message);
    if r == i {
      forall j | Rank(j) < Rank(i)
        ensures !GroupMatches(Normalize(message), j)
      {
        match j
        case AboutAkshat =>
        case Projects =>
        case Links =>
        case TechNews =>
        case Appointment =>
        case General =>
      }
    }
  }

  /** GENERAL is returned exactly when no keyword group fires. */
  lemma GeneralIffNoGroupFires(message: string)
    ensures DetectIntent(message) == General <==>
      forall j :: j != General ==> !GroupMatches(Normalize(message), j)
  {
    if DetectIntent(message) == General {
      forall j | j != General
        ensures !GroupMatches(Normalize(message), j)
      {
        match j
        case AboutAkshat =>
        case Projects =>
        case Links =>
        case TechNews =>
        case Appointment =>
        case General =>
      }
    }
  }

  /** "news" and "tech" together select TECH_NEWS, unless an about,
      projects or links keyword is present. */
  lemma NewsAndTechSelectTechNews(message: string)
    requires Includes(Normalize(message), "news") && Includes(Normalize(message), "tech")
    requires !GroupMatches(Normalize(message), AboutAkshat)
    requires !GroupMatches(Normalize(message), Projects)
    requires !GroupMatches(Normalize(message), Links)
    ensures DetectIntent(message) == TechNews
  {
  }

  // ---------------------------------------------------------------------
  // Intent detection: normalization
  // ---------------------------------------------------------------------

  /** Messages that agree once each letter is lower-cased get the same label. */
  lemma DetectIntentIgnoresCase(a: string, b: string)
    requires |a| == |b|
    requires forall k :: 0 <= k < |a| ==> LowerChar(a[k]) == LowerChar(b[k])
    ensures DetectIntent(a) == DetectIntent(b)
  {
    assert ToLower(a) == ToLower(b);
  }

  /** Whitespace before and after a message does not change its label. */
  lemma DetectIntentIgnoresPadding(pre: string, message: string, post: string)
    requires AllWhitespace(pre) && AllWhitespace(post)
    ensures DetectIntent(pre + message + post) == DetectIntent(message)
  {
    ToLowerConcat(pre + message, post);
    ToLowerConcat(pre, message);
    ToLowerKeepsWhitespace(pre);
    ToLowerKeepsWhitespace(post);
    TrimIgnoresPadding(pre, ToLower(message), post);
  }

  /** Normalizing twice is normalizing once. */
  lemma NormalizeIdempotent(message: string)
    ensures Normalize(Normalize(message)) == Normalize(message)
  {
    var lower := ToLower(message);
    ToLowerIsLower(message);
    TrimKeepsLower(lower);
    ToLowerFixed(Trim(lower));
    TrimIdempotent(lower);
  }

  /** Detection reads a message only through its normal form. */
  lemma SameNormalFormSameIntent(a: string, b: string)
    requires Normalize(a) == Normalize(b)
    ensures DetectIntent(a) == DetectIntent(b)
  {
  }

  /** An already-normalized message gets the label of the original. */
  lemma DetectIntentOfNormalized(message: string)
    ensures DetectIntent(Normalize(message)) == DetectIntent(message)
  {
    NormalizeIdempotent(message);
    SameNormalFormSameIntent(Normalize(message), message);
  }

  // ---------------------------------------------------------------------
  // Generated replies
  // ---------------------------------------------------------------------

  /** Every project appears in the numbered list under its 1-based number. */
  lemma {:induction false} NumberedLinesListEach(items: seq<string>, first: nat, i: nat)
    requires i < |items|
    ensures Occurs(NumberedLines(items, first), NumberedItem(first + i, items[i]))
    decreases i
  {
    var item := NumberedItem(first, items[0]);
    if |items| == 1 {
      assert OccursAt(NumberedLines(items, first), item, 0);
    } else {
      var rest := NumberedLines(items[1..], first + 1);
      NumberedLinesCons(items, first);
      if i == 0 {
        assert OccursAt(item + "\n", item, 0);
        OccursInConcat(item + "\n", rest, item);
      } else {
        NumberedLinesListEach(items[1..], first + 1, i - 1);
        assert items[1..][i - 1] == items[i];
        OccursInConcat(item + "\n", rest, NumberedItem(first + i, items[i]));
      }
    }
  }

  lemma NumberedLinesCons(items: seq<string>, first: nat)
    requires |items| >= 2
    ensures NumberedLines(items, first)
      == (NumberedItem(first, items[0]) + "\n") + NumberedLines(items[1..], first + 1)
  {
  }

  /** The projects reply lists project `i` as line `i + 1`. */
  lemma ProjectsReplyListsEach(kb: KnowledgeBase, message: string, i: nat)
    requires i < |kb.projects|
    ensures Occurs(GenerateFor(kb, message, Projects).response, NumberedItem(i + 1, kb.projects[i]))
  {
    var intro := "🚀 Here are some of Akshat's projects:\n\n";
    var lines := NumberedLines(kb.projects, 1);
    var key := NumberedItem(i + 1, kb.projects[i]);
    NumberedLinesListEach(kb.projects, 1, i);
    OccursInConcat(intro, lines, key);
    OccursInConcat(intro + lines, "\n\nCheck out more on GitHub: " + kb.links.projects, key);
    assert ProjectsText(kb) == (intro + lines) + ("\n\nCheck out more on GitHub: " + kb.links.projects);
  }

  // ---------------------------------------------------------------------
  // News rendering
  // ---------------------------------------------------------------------

  /** In a non-empty list, article `i` is rendered as block number `i + 1`,
      after the header and the blocks of the articles before it and before
      the blocks of the articles after it. */
  lemma RenderedNewsInOrder(list: seq<Article>, i: nat)
    requires i < |list|
    ensures RenderedNews(Some(list)) ==
      NewsHeader + NewsBlocks(list[..i], 1) + ArticleBlock(i + 1, list[i])
        + NewsBlocks(list[i + 1..], i + 2)
  {
    NewsBlocksSplit(list, i);
    NewsBlocksAt(list, i);
    var a, b, c := NewsBlocks(list[..i], 1), ArticleBlock(i + 1, list[i]), NewsBlocks(list[i + 1..], i + 2);
    StringConcatAssociates(a, b, c);
    StringConcatAssociates(NewsHeader, a, b + c);
    StringConcatAssociates(NewsHeader + a, b, c);
  }

  lemma NewsBlocksSplit(list: seq<Article>, i: nat)
    requires i <= |list|
    ensures NewsBlocks(list, 1) == NewsBlocks(list[..i], 1) + NewsBlocks(list[i..], 1 + i)
  {
    assert list == list[..i] + list[i..];
    NewsBlocksAppend(list[..i], list[i..], 1);
  }

  lemma NewsBlocksAt(list: seq<Article>, i: nat)
    requires i < |list|
    ensures NewsBlocks(list[i..], 1 + i) == ArticleBlock(i + 1, list[i]) + NewsBlocks(list[i + 1..], i + 2)
  {
    assert list[i..][1..] == list[i + 1..];
  }

  /** Once a news call is pending, whatever the provider answers, the
      executor's text differs from the provisional reply it replaces. */
  lemma NewsReplacesProvisional(message: string, reply: Result<Option<seq<Article>>, Fault>)
    requires Pending(message).action == CallNewsApi
    ensures Pending(message).response == FetchingNewsText
    ensures NewsText(reply) != Pending(message).response
  {
    NewsTextNeverProvisional(reply);
  }

  /** The final news text is never the provisional "fetching" text: it is
      the rendered news, the "no news" text or the failure apology. */
  lemma NewsTextNeverProvisional(reply: Result<Option<seq<Article>>, Fault>)
    ensures NewsText(reply) != FetchingNewsText
    ensures NewsText(reply) == NoNewsText || NewsText(reply) == NewsFailureText
      || NewsText(reply)[..|NewsHeader|] == NewsHeader
  {
    var t := NewsText(reply);
    if t != NoNewsText && t != NewsFailureText {
      assert t[2] == NewsHeader[2];
    }
  }
}

=== FILE: text.dfy ===
/** The string primitives the bot relies on, with JavaScript's meaning:
    `toLowerCase` (ASCII letters only), `trim`, `includes`, the decimal
    rendering of a number inside a template literal, and `.length`, which
    counts UTF-16 code units rather than characters. */
module Text {

  // ---------------------------------------------------------------------
  // Whitespace and trimming
  // ---------------------------------------------------------------------

  /** The code points `String.prototype.trim` strips: ECMAScript WhiteSpace
      (tab, vertical tab, form feed, space, no-break space, the byte order
      mark and the Unicode space separators) and LineTerminator (line feed,
      carriage return, line and paragraph separators). */
  predicate IsWhitespace(c: char) {
    var n := c as int;
    || n == 0x09 || n == 0x0A || n == 0x0B || n == 0x0C || n == 0x0D
    || n == 0x20 || n == 0xA0 || n == 0x1680
    || (0x2000 <= n <= 0x200A)
    || n == 0x2028 || n == 0x2029 || n == 0x202F || n == 0x205F
    || n == 0x3000 || n == 0xFEFF
  }

  /** Every character of `s` in `[lo, hi)` is whitespace. */
  predicate WhitespaceBetween(s: string, lo: int, hi: int)
    requires 0 <= lo && hi <= |s|
  {
    forall k :: lo <= k < hi ==> IsWhitespace(s[k])
  }

  predicate AllWhitespace(s: string) {
    WhitespaceBetween(s, 0, |s|)
  }

  /** Number of whitespace characters at the front of `s`. */
  function LeadingWhitespace(s: string): (n: nat)
    ensures n <= |s|
    ensures WhitespaceBetween(s, 0, n)
    ensures n < |s| ==> !IsWhitespace(s[n])
    decreases |s|
  {
    if |s| > 0 && IsWhitespace(s[0]) then
      var m := LeadingWhitespace(s[1..]);
      assert forall k :: 1 <= k < 1 + m ==> s[k] == s[1..][k - 1];
      1 + m
    else
      0
  }

  /** Number of whitespace characters at the back of `s`. */
  function TrailingWhitespace(s: string): (n: nat)
    ensures n <= |s|
    ensures WhitespaceBetween(s, |s| - n, |s|)
    ensures n < |s| ==> !IsWhitespace(s[|s| - n - 1])
    decreases |s|
  {
    if |s| > 0 && IsWhitespace(s[|s| - 1]) then
      var m := TrailingWhitespace(s[..|s| - 1]);
      1 + m
    else
      0
  }

  /** `s` has no whitespace at either end. */
  predicate IsTrimmed(s: string) {
    |s| == 0 || (!IsWhitespace(s[0]) && !IsWhitespace(s[|s| - 1]))
  }

  /** `s[i..j]` is what is left of `s` once whitespace is stripped from both
      ends: only whitespace outside it, none at its own edges. */
  predicate TrimsTo(s: string, i: int, j: int) {
    && 0 <= i <= j <= |s|
    && WhitespaceBetween(s, 0, i)
    && WhitespaceBetween(s, j, |s|)
    && IsTrimmed(s[i..j])
  }

  /** `r` is the trim of `s`. */
  ghost predicate TrimOf(s: string, r: string) {
    exists i, j :: TrimsTo(s, i, j) && s[i..j] == r
  }

  /** JavaScript's `String.prototype.trim`. */
  function Trim(s: string): (r: string)
    ensures TrimOf(s, r)
  {
    var a := LeadingWhitespace(s);
    var b := TrailingWhitespace(s[a..]);
    var r := s[a..|s| - b];
    assert forall k :: |s| - b <= k < |s| ==> s[k] == s[a..][k - a];
    assert TrimsTo(s, a, |s| - b);
    r
  }

  /** Two ways of trimming the same string give the same bounds (or both
      give the empty string). */
  lemma TrimsToUnique(s: string, i1: int, j1: int, i2: int, j2: int)
    requires TrimsTo(s, i1, j1) && TrimsTo(s, i2, j2)
    ensures s[i1..j1] == s[i2..j2]
  {
    if i1 < j1 && i2 < j2 {
      assert s[i1..j1][0] == s[i1] && s[i2..j2][0] == s[i2];
      assert s[i1..j1][j1 - i1 - 1] == s[j1 - 1] && s[i2..j2][j2 - i2 - 1] == s[j2 - 1];
    }
  }

  /** At most one string is the trim of `s`. */
  lemma TrimOfUnique(s: string, r1: string, r2: string)
    requires TrimOf(s, r1) && TrimOf(s, r2)
    ensures r1 == r2
  {
    var i1, j1 :| TrimsTo(s, i1, j1) && s[i1..j1] == r1;
    var i2, j2 :| TrimsTo(s, i2, j2) && s[i2..j2] == r2;
    TrimsToUnique(s, i1, j1, i2, j2);
  }

  /** Whitespace added around a string does not change its trim. */
  lemma TrimIgnoresPadding(pre: string, x: string, post: string)
    requires AllWhitespace(pre) && AllWhitespace(post)
    ensures Trim(pre + x + post) == Trim(x)
  {
    var r := Trim(x);
    var i, j :| TrimsTo(x, i, j) && x[i..j] == r;
    var s := pre + x + post;
    var p := |pre|;
    assert s[p + i..p + j] == r by {
      assert s == pre + (x + post);
      assert (x + post)[i..j] == x[i..j];
    }
    PaddedLeadingWhitespace(pre, x, post, i);
    PaddedTrailingWhitespace(pre, x, post, j);
    assert TrimsTo(s, p + i, p + j);
    TrimOfUnique(s, Trim(s), r);
  }

  lemma PaddedLeadingWhitespace(pre: string, x: string, post: string, i: nat)
    requires AllWhitespace(pre) && i <= |x| && WhitespaceBetween(x, 0, i)
    ensures WhitespaceBetween(pre + x + post, 0, |pre| + i)
  {
    var s := pre + x + post;
    forall k | 0 <= k < |pre| + i
      ensures IsWhitespace(s[k])
    {
      if k < |pre| {
        assert s[k] == pre[k];
      } else {
        assert s[k] == x[k - |pre|];
      }
    }
  }

  lemma PaddedTrailingWhitespace(pre: string, x: string, post: string, j: nat)
    requires AllWhitespace(post) && j <= |x| && WhitespaceBetween(x, j, |x|)
    ensures WhitespaceBetween(pre + x + post, |pre| + j, |pre + x + post|)
  {
    var s := pre + x + post;
    forall k | |pre| + j <= k < |s|
      ensures IsWhitespace(s[k])
    {
      if k < |pre| + |x| {
        assert s[k] == x[k - |pre|];
      } else {
        assert s[k] == post[k - |pre| - |x|];
      }
    }
  }

  /** Trimming twice is trimming once. */
  lemma TrimIdempotent(s: string)
    ensures Trim(Trim(s)) == Trim(s)
  {
    TrimFixed(Trim(s));
  }

  /** A string with no whitespace at its ends is its own trim. */
  lemma TrimFixed(s: string)
    requires IsTrimmed(s)
    ensures Trim(s) == s
  {
    assert s[0..|s|] == s;
    assert TrimsTo(s, 0, |s|);
    TrimOfUnique(s, Trim(s), s);
  }

  // ---------------------------------------------------------------------
  // Lower-casing
  // ---------------------------------------------------------------------

  predicate IsUpper(c: char) {
    'A' <= c <= 'Z'
  }

  /** Lower-case one character; only the ASCII letters A-Z are mapped. */
  function LowerChar(c: char): char {
    if IsUpper(c) then (c as int + 32) as char else c
  }

  /** JavaScript's `String.prototype.toLowerCase`, restricted to ASCII. */
  function ToLower(s: string): (r: string)
    ensures |r| == |s|
    ensures forall i :: 0 <= i < |s| ==> r[i] == LowerChar(s[i])
  {
    seq(|s|, i requires 0 <= i < |s| => LowerChar(s[i]))
  }

  predicate IsLower(s: string) {
    forall i :: 0 <= i < |s| ==> !IsUpper(s[i])
  }

  /** Lower-casing leaves no upper-case letter behind. */
  lemma ToLowerIsLower(s: string)
    ensures IsLower(ToLower(s))
  {
  }

  /** A string without upper-case letters is its own lower-case form. */
  lemma ToLowerFixed(s: string)
    requires IsLower(s)
    ensures ToLower(s) == s
  {
  }

  /** Trimming only removes characters, so it keeps a string lower-case. */
  lemma TrimKeepsLower(s: string)
    requires IsLower(s)
    ensures IsLower(Trim(s))
  {
    assert TrimOf(s, Trim(s));
    var i, j :| TrimsTo(s, i, j) && s[i..j] == Trim(s);
    assert forall k :: 0 <= k < j - i ==> s[i..j][k] == s[i + k];
  }

  /** Lower-casing works character by character, so it distributes over
      concatenation. */
  lemma ToLowerConcat(a: string, b: string)
    ensures ToLower(a + b) == ToLower(a) + ToLower(b)
  {
  }

  /** No whitespace character is an upper-case letter. */
  lemma ToLowerKeepsWhitespace(w: string)
    requires AllWhitespace(w)
    ensures ToLower(w) == w
  {
  }

  // ---------------------------------------------------------------------
  // Substring search
  // ---------------------------------------------------------------------

  /** `key` occurs in `s` starting at index `i`. */
  predicate OccursAt(s: string, key: string, i: int) {
    0 <= i && i + |key| <= |s| && s[i..i + |key|] == key
  }

  /** `key` occurs somewhere in `s`. */
  ghost predicate Occurs(s: string, key: string) {
    exists i :: OccursAt(s, key, i)
  }

  /** Dropping the first character shifts every later occurrence by one. */
  lemma OccursShifted(s: string, key: string, i: int)
    requires |s| > 0 && i >= 1
    ensures OccursAt(s, key, i) <==> OccursAt(s[1..], key, i - 1)
  {
    if i + |key| <= |s| {
      assert s[i..i + |key|] == s[1..][i - 1..i - 1 + |key|];
    }
  }

  /** JavaScript's `String.prototype.includes`: scan left to right,
      comparing `key` against the text at each position. */
  function Includes(s: string, key: string): (b: bool)
    ensures b <==> Occurs(s, key)
    decreases |s|
  {
    if |key| > |s| then
      false
    else if s[..|key|] == key then
      assert OccursAt(s, key, 0);
      true
    else
      var rest := Includes(s[1..], key);
      assert !OccursAt(s, key, 0) by {
        assert s[0..|key|] == s[..|key|];
      }
      forall i | OccursAt(s[1..], key, i)
        ensures OccursAt(s, key, i + 1)
      {
        OccursShifted(s, key, i + 1);
      }
      forall i | OccursAt(s, key, i)
        ensures OccursAt(s[1..], key, i - 1)
      {
        OccursShifted(s, key, i);
      }
      rest
  }

  /** A key occurring in either part occurs in the concatenation. */
  lemma OccursInConcat(a: string, b: string, key: string)
    requires Occurs(a, key) || Occurs(b, key)
    ensures Occurs(a + b, key)
  {
    if Occurs(a, key) {
      var i :| OccursAt(a, key, i);
      assert (a + b)[i..i + |key|] == a[i..i + |key|];
      assert OccursAt(a + b, key, i);
    } else {
      var i :| OccursAt(b, key, i);
      assert (a + b)[|a| + i..|a| + i + |key|] == b[i..i + |key|];
      assert OccursAt(a + b, key, |a| + i);
    }
  }

  /** A key with a character that does not appear in `s` cannot occur in it. */
  lemma MissingCharExcludes(s: string, key: string, j: nat)
    requires j < |key| && key[j] !in s
    ensures !Includes(s, key)
  {
  }

  /** Somewhere in `s`, the character `a` is immediately followed by `b`. */
  ghost predicate HasPair(s: string, a: char, b: char) {
    exists i :: 0 <= i < |s| - 1 && s[i] == a && s[i + 1] == b
  }

  /** A key with two adjacent characters that never stand side by side in
      the text is not included. */
  lemma MissingPairExcludes(s: string, key: string, j: nat)
    requires j + 1 < |key| && !HasPair(s, key[j], key[j + 1])
    ensures !Includes(s, key)
  {
    if Includes(s, key) {
      var i :| OccursAt(s, key, i);
      OccurrenceHasPair(s, key, i, j);
    }
  }

  /** Adjacent characters of an occurring key stand side by side in the text. */
  lemma OccurrenceHasPair(s: string, key: string, i: int, j: nat)
    requires OccursAt(s, key, i) && j + 1 < |key|
    ensures HasPair(s, key[j], key[j + 1])
  {
    assert s[i + j] == s[i..i + |key|][j];
    assert s[i + j + 1] == s[i..i + |key|][j + 1];
  }

  /** Some keyword of `keys` occurs in `s` (a chain of `includes` joined by `||`). */
  function IncludesAny(s: string, keys: seq<string>): (b: bool)
    ensures b <==> exists i :: 0 <= i < |keys| && Occurs(s, keys[i])
  {
    if |keys| == 0 then
      false
    else if Includes(s, keys[0]) then
      true
    else
      var b := IncludesAny(s, keys[1..]);
      assert forall i :: 0 < i < |keys| ==> keys[i] == keys[1..][i - 1];
      b
  }

  /** `IncludesAny` is false once every keyword is known to be absent. */
  lemma NoneIncluded(s: string, keys: seq<string>)
    requires forall k :: k in keys ==> !Includes(s, k)
    ensures !IncludesAny(s, keys)
  {
  }

  // ---------------------------------------------------------------------
  // Decimal rendering (`${n}` for a non-negative integer)
  // ---------------------------------------------------------------------

  predicate IsDigit(c: char) {
    '0' <= c <= '9'
  }

  predicate AllDigits(s: string) {
    forall i :: 0 <= i < |s| ==> IsDigit(s[i])
  }

  function DigitChar(d: nat): (c: char)
    requires d < 10
    ensures IsDigit(c) && c as int - '0' as int == d
  {
    ('0' as int + d) as char
  }

  /** The number a string of decimal digits denotes. */
  function DecimalValue(s: string): nat
    requires AllDigits(s)
  {
    if |s| == 0 then 0
    else 10 * DecimalValue(s[..|s| - 1]) + (s[|s| - 1] as int - '0' as int)
  }

  /** The decimal text of `n`, as a template literal renders it: at least
      one digit, no leading zero, and denoting `n`. */
  function NatToDecimal(n: nat): (s: string)
    ensures |s| >= 1 && AllDigits(s)
    ensures s[0] == '0' ==> |s| == 1
    ensures DecimalValue(s) == n
    decreases n
  {
    if n < 10 then
      [DigitChar(n)]
    else
      var prefix := NatToDecimal(n / 10);
      var s := prefix + [DigitChar(n % 10)];
      assert s[..|s| - 1] == prefix;
      s
  }

  // ---------------------------------------------------------------------
  // UTF-16 length (`.length`)
  // ---------------------------------------------------------------------

  /** UTF-16 code units needed for one code point: two for a supplementary
      character (an emoji, for instance), one otherwise. */
  function Utf16Units(c: char): nat {
    if c as int > 0xFFFF then 2 else 1
  }

  /** JavaScript's `.length` of a string. */
  function Utf16Length(s: string): (n: nat)
    ensures |s| <= n <= 2 * |s|
  {
    if |s| == 0 then 0 else Utf16Units(s[0]) + Utf16Length(s[1..])
  }

  /** `.length` of a concatenation is the sum of the lengths. */
  lemma {:induction false} Utf16LengthConcat(a: string, b: string)
    ensures Utf16Length(a + b) == Utf16Length(a) + Utf16Length(b)
    decreases |a|
  {
    if |a| == 0 {
      assert a + b == b;
    } else {
      assert (a + b)[1..] == a[1..] + b;
      Utf16LengthConcat(a[1..], b);
    }
  }

  /** No code point of `s` needs a surrogate pair. */
  predicate InBasicPlane(s: string) {
    forall i :: 0 <= i < |s| ==> s[i] as int <= 0xFFFF
  }

  /** In the Basic Multilingual Plane, `.length` is the number of characters. */
  lemma {:induction false} BasicPlaneLength(s: string)
    requires InBasicPlane(s)
    ensures Utf16Length(s) == |s|
    decreases |s|
  {
    if |s| > 0 {
      BasicPlaneLength(s[1..]);
    }
  }
}

=== FILE: typing.dfy ===
/** Delivery pacing: how long the "typing" indicator is shown before a reply
    is sent, and the order of the events of one delivery.

    Wall-clock behaviour is not modelled. A delivery is a trace of events,
    and a small phase machine says which traces are allowed. How many
    periodic re-sends of "typing" fire during the wait, and whether each
    post succeeds, are parameters. */
module Typing {
  import opened Wrappers
  import opened Text

  // ---------------------------------------------------------------------
  // Delay
  // ---------------------------------------------------------------------

  /** Milliseconds of "typing" per UTF-16 code unit of the reply. */
  const MsPerUnit: nat := 40

  /** The longest delay, in milliseconds. */
  const MaxDelayMs: nat := 3000

  /** `computeDelay`: `Math.min(reply.length * 40, 3000)`, where `.length`
      counts UTF-16 code units. */
  function ComputeDelay(reply: string): (d: nat)
    ensures d <= MaxDelayMs
    ensures Utf16Length(reply) < 75 ==> d == MsPerUnit * Utf16Length(reply)
    ensures Utf16Length(reply) >= 75 ==> d == MaxDelayMs
  {
    var scaled := Utf16Length(reply) * MsPerUnit;
    if scaled < MaxDelayMs then scaled else MaxDelayMs
  }

  /** A longer reply never gets a shorter delay. */
  lemma DelayMonotone(a: string, b: string)
    requires Utf16Length(a) <= Utf16Length(b)
    ensures ComputeDelay(a) <= ComputeDelay(b)
  {
  }

  /** Appending text to a reply never shortens its delay. */
  lemma DelayGrowsWithText(a: string, b: string)
    ensures ComputeDelay(a) <= ComputeDelay(a + b)
  {
    Utf16LengthConcat(a, b);
  }

  /** For text without supplementary characters: length 0 gives 0 ms,
      length 10 gives 400 ms, below 75 the delay is 40 ms per character and
      from 75 on it is capped at 3000 ms. */
  lemma DelayOfBasicText(reply: string)
    requires InBasicPlane(reply)
    ensures |reply| == 0 ==> ComputeDelay(reply) == 0
    ensures |reply| == 10 ==> ComputeDelay(reply) == 400
    ensures |reply| < 75 ==> ComputeDelay(reply) == 40 * |reply|
    ensures |reply| >= 75 ==> ComputeDelay(reply) == 3000
  {
    BasicPlaneLength(reply);
  }

  // ---------------------------------------------------------------------
  // Event trace
  // ---------------------------------------------------------------------

  /** What happens during one delivery. `ok` records whether a post to the
      chat service succeeded. */
  datatype Event =
    | TypingSent(ok: bool)   // the initial "typing" action
    | IntervalStarted        // the periodic re-send timer is set up
    | TypingTick(ok: bool)   // one periodic re-send of "typing"
    | Waited(ms: nat)        // the computed delay has elapsed
    | IntervalCleared        // the periodic timer is cancelled
    | MessageSent(ok: bool)  // the reply itself is posted

  /** Where a delivery stands. */
  datatype Phase = Start | Signalled | Ticking | Elapsed | Cleared | Finished(ok: bool)

  /** One transition of the delivery. A failed initial "typing" post and a
      failed periodic post move on like successful ones; the reply is
      posted once, after the timer is cancelled. */
  function Step(p: Phase, e: Event): Option<Phase> {
    match (p, e)
    case (Start, TypingSent(_)) => Some(Signalled)
    case (Signalled, IntervalStarted) => Some(Ticking)
    case (Ticking, TypingTick(_)) => Some(Ticking)
    case (Ticking, Waited(_)) => Some(Elapsed)
    case (Elapsed, IntervalCleared) => Some(Cleared)
    case (Cleared, MessageSent(ok)) => Some(Finished(ok))
    case _ => None
  }

  /** The phase reached by running `trace` from `p`, or `None` if some event
      is not allowed where it occurs. */
  function Run(p: Phase, trace: seq<Event>): Option<Phase>
    decreases |trace|
  {
    if |trace| == 0 then Some(p)
    else
      match Step(p, trace[0])
      case None => None
      case Some(q) => Run(q, trace[1..])
  }

  /** The periodic re-sends, one per entry of `ticks`. */
  function TickEvents(ticks: seq<bool>): (r: seq<Event>)
    ensures |r| == |ticks|
    ensures forall i :: 0 <= i < |r| ==> r[i] == TypingTick(ticks[i])
  {
    seq(|ticks|, i requires 0 <= i < |ticks| => TypingTick(ticks[i]))
  }

  predicate AllTicks(t: seq<Event>) {
    forall i :: 0 <= i < |t| ==> t[i].TypingTick?
  }

  /** The events from the running timer on: re-sends, the end of the wait,
      the cancel and the final post. */
  predicate WaitThenSend(t: seq<Event>, ok: bool) {
    && |t| >= 3
    && AllTicks(t[..|t| - 3])
    && t[|t| - 3].Waited?
    && t[|t| - 2] == IntervalCleared
    && t[|t| - 1] == MessageSent(ok)
  }

  /** From a running timer, a trace finishes with outcome `ok` exactly when
      it is some re-sends, the wait, the cancel and the post. */
  lemma {:induction false} TickingRuns(t: seq<Event>, ok: bool)
    ensures Run(Ticking, t) == Some(Finished(ok)) <==> WaitThenSend(t, ok)
    decreases |t|
  {
    if |t| == 0 {
      return;
    }
    match t[0]
    case TypingTick(_) =>
      TickingRuns(t[1..], ok);
      TickThenWaitThenSend(t, ok);
    case Waited(_) =>
      ElapsedRuns(t[1..], ok);
      WaitedThenSend(t, ok);
    case TypingSent(_) =>
    case IntervalStarted =>
    case IntervalCleared =>
    case MessageSent(_) =>
  }

  /** A leading re-send does not change whether the rest has the shape. */
  lemma TickThenWaitThenSend(t: seq<Event>, ok: bool)
    requires |t| > 0 && t[0].TypingTick?
    ensures WaitThenSend(t, ok) <==> WaitThenSend(t[1..], ok)
  {
    var rest := t[1..];
    if |t| >= 4 {
      assert t[..|t| - 3] == [t[0]] + rest[..|rest| - 3];
    }
  }

  /** With the wait first, the shape leaves exactly the cancel and the post. */
  lemma WaitedThenSend(t: seq<Event>, ok: bool)
    requires |t| > 0 && t[0].Waited?
    ensures WaitThenSend(t, ok) <==> t[1..] == [IntervalCleared, MessageSent(ok)]
  {
    if |t| > 3 {
      assert t[..|t| - 3][0] == t[0];
    }
    if t[1..] == [IntervalCleared, MessageSent(ok)] {
      assert t[..|t| - 3] == [];
    }
  }

  /** Once the wait is over, the only way to finish is the cancel followed
      by the post. */
  lemma ElapsedRuns(t: seq<Event>, ok: bool)
    ensures Run(Elapsed, t) == Some(Finished(ok)) <==> t == [IntervalCleared, MessageSent(ok)]
  {
    if |t| >= 1 && t[0] == IntervalCleared {
      var rest := t[1..];
      if |rest| >= 1 && rest[0].MessageSent? {
        assert Run(Cleared, rest) == Run(Finished(rest[0].ok), rest[1..]);
        if |rest| == 1 {
          assert t == [IntervalCleared, rest[0]];
        }
      }
    }
  }

  /** The traces of a finished delivery are exactly: one "typing" post,
      the timer start, then `WaitThenSend`. */
  lemma AcceptedTraces(t: seq<Event>, ok: bool)
    ensures Run(Start, t) == Some(Finished(ok)) <==>
      |t| >= 2 && t[0].TypingSent? && t[1] == IntervalStarted && WaitThenSend(t[2..], ok)
  {
    if |t| >= 2 && t[0].TypingSent? && t[1] == IntervalStarted {
      assert t[1..][1..] == t[2..];
      TickingRuns(t[2..], ok);
    } else if |t| >= 2 && t[0].TypingSent? {
      assert t[1..][0] == t[1];
    }
  }

  /** Every finished delivery posts the reply exactly once, as its last
      event; cancels the timer exactly once, right before that post; and
      has no periodic re-send after the cancel. */
  lemma FinishedDeliveryIsOrdered(t: seq<Event>, ok: bool)
    requires Run(Start, t) == Some(Finished(ok))
    ensures t[|t| - 1] == MessageSent(ok)
    ensures forall i :: 0 <= i < |t| - 1 ==> !t[i].MessageSent?
    ensures t[|t| - 2] == IntervalCleared
    ensures forall i :: 0 <= i < |t| && i != |t| - 2 ==> t[i] != IntervalCleared
    ensures forall i :: 0 <= i < |t| && t[i].TypingTick? ==> i < |t| - 2
  {
    AcceptedTraces(t, ok);
    var w := t[2..];
    assert forall i :: 2 <= i < |t| - 3 ==> t[i] == w[..|w| - 3][i - 2];
  }

  // ---------------------------------------------------------------------
  // Delivery
  // ---------------------------------------------------------------------

  /** How a delivery ends for its caller: the send's reply is returned, or
      the send's error is re-thrown. */
  datatype Outcome = Returned | Rethrown

  /** `sendTypingThenMessage`. `typingOk` says whether the initial "typing"
      post succeeded, `ticks` whether each periodic re-send did, and
      `sendOk` whether the final post did. */
  method SendTypingThenMessage(reply: string, typingOk: bool, ticks: seq<bool>, sendOk: bool)
    returns (trace: seq<Event>, outcome: Outcome)
    ensures Run(Start, trace) == Some(Finished(sendOk))
    ensures Waited(ComputeDelay(reply)) in trace
    ensures trace[0] == TypingSent(typingOk)
    ensures |trace| == |ticks| + 5
    ensures trace[2..|trace| - 3] == TickEvents(ticks)
    ensures outcome == Rethrown <==> !sendOk
  {
    var delay := ComputeDelay(reply);
    // The initial post's failure is swallowed: the run goes on either way.
    trace := [TypingSent(typingOk)];
    trace := trace + [IntervalStarted];
    var k := 0;
    while k < |ticks|
      invariant 0 <= k <= |ticks|
      invariant trace == [TypingSent(typingOk), IntervalStarted] + TickEvents(ticks[..k])
    {
      trace := trace + [TypingTick(ticks[k])];
      k := k + 1;
    }
    assert ticks[..k] == ticks;
    trace := trace + [Waited(delay), IntervalCleared, MessageSent(sendOk)];
    assert trace[2..][..|trace| - 5] == TickEvents(ticks);
    AcceptedTraces(trace, sendOk);
    assert trace[|trace| - 3] == Waited(delay);
    outcome := if sendOk then Returned else Rethrown;
  }
}

=== FILE: wrappers.dfy ===
/** Optional values and success/failure results, used for JavaScript's
    `null`/`undefined` fields and for calls that may throw. */
module Wrappers {

  /** A value that may be absent (`null` or `undefined` in the bot). */
  datatype Option<+T> = None | Some(value: T)

  /** The outcome of an operation that either returns a value or throws. */
  datatype Result<+R, +E> = Success(value: R) | Failure(error: E)
}
